=== FILE: README.md ===
# Decaf semantic checker: name resolution and expression typing

This project models two parts of a Decaf compiler's semantic checker (the
Decaf language, "pp4"):

- **Name resolution.** `Node::FindDecl` walks from a node up the syntactic
  parent chain. At each node it probes that node's lazily prepared scope
  table. Deep mode keeps walking; shallow mode stops at the node itself.
  `Node::IsClassScope` walks the same chain. It asks whether some node has a
  prepared scope and sits directly inside a class declaration.
- **Expression typing.** These are the `GetType`/`Check` rules of compound
  (relational, equality, logical), arithmetic and assignment expressions, and
  of array access, field access, calls, `new T[n]` and `this`. Each rule
  gives a type plus the diagnostics reported while computing it, in
  reporting order. Re-evaluations count: when a rule asks an operand for its
  type twice, that operand's diagnostics appear twice.

## How the model is built

- **The tree is an arena** (`Ast.Program`). Nodes are numbered in allocation
  order. Every child is allocated before its parent: expression children are
  attached in the parent's constructor, function bodies just after it. Hence
  `parent(i) > i` on every node, which is the termination measure of both
  upward walks.
- **Scopes.** A node carries its memoized scope table, which may be absent.
  It also carries the table that `PrepareScope` would install. The per-node
  `PrepareScope` bodies are not part of this model, so that table is given
  as data.
  - The walks in `Ast.FindDecl` and `Ast.IsClassScope` read prepared scopes
    without installing them.
  - `Ast.FindDeclMemo` and `Ast.IsClassScopeMemo` do install them, as the
    source does. They are proved to give the same answers, and the lookup
    is proved to settle after one run.
- **Type identity.**
  - The primitive types are singletons.
  - Named and array types are heap objects. Each one carries an `AllocId`, so
    datatype equality on `Types.Type` is exactly the pointer comparison that
    `CompoundExpr::GetType` makes.
  - A `new T[n]` expression allocates a fresh array type whenever it is asked
    for its type. The model identifies that object by the expression's node.
- **Outside inputs.** `IsEquivalentTo` is an arbitrary relation, `Ctx.equiv`.
  The default lookup modes of both walks are the parameters `Ctx.findMode`
  and `Ctx.classMode`.
- **Pure functions.** `Checker.TypeOf` and `Checker.CheckOf` are what
  `GetType()` and `Check()` return and report on any expression node. They
  combine the per-kind rules of `ExprRules`.

### Behaviour worth knowing

- **Error propagation is partial.** Only compound, arithmetic and assignment
  nodes let an error operand through without reporting
  (`Checker.OperatorErrorPropagates`), and a call never reads its actuals'
  types at all. Array access, `new T[n]` and qualified field access still
  report on it.
  - Array access still reports `BracketsOnNonArray` and `SubscriptNotInteger`
    on error operands (`Checker.ArrayAccessReportsOnError`).
  - `new T[n]` still reports a size of the error type.
  - A qualified field access still reports `FieldNotFoundInBase`.
- **Arithmetic expressions check nothing on their own.**
  `ArithmeticExpr::Check` is empty, so a call reports nothing for an actual
  that is itself an arithmetic expression, even when its operands clash
  (`Checker.ArithmeticActualsSilent`). An arithmetic error nested under a
  compound, assignment, field-access or array-access actual is still
  reported, through that node's `GetType`
  (`Scenarios.NestedArithmeticActualReported`).
- **Compound expressions compare type objects, not types.**
  `CompoundExpr::GetType` uses pointer identity, so `x == y` on two variables
  declared `A x; A y;` is reported incompatible
  (`Scenarios.SameClassCompareIncompatible`). The same holds for any two
  `new[]` expressions (`Checker.NewArraysNeverIdentical`).
- **Qualified field access never succeeds.** `FieldAccess::GetType` with a
  base returns the error type on every path, including a successful one
  (`Checker.QualifiedFieldAccessIsError`).

## Model

| member | source | states |
|---|---|---|
| Ast.Prepare | ast.cc:29 | Preparing fills in the scope only when it is absent: a node that already has one is unchanged, and afterwards the installed table is the one the node's lookups see. |
| Ast.Chain | ast.cc:32-33 | The walk's path starts at the node, follows parent links one step at a time, stays inside the arena and ends at a node without a parent. |
| Ast.ChildrenOwned | ast_expr.cc:35-329 | Every operand, base, actual and size that an expression names is an expression allocated before it, and its parent link points back to it, as each constructor's `SetParent` sets it (lines 37-39, 46-47, 55-56, 177-178, 215-216, 272-274 and 327). |
| Ast.FindDecl | ast.cc:27-35 | A local binding is returned in both modes. On a local miss, shallow mode and the root return nothing. Any result names an existing declaration. |
| Ast.IsClassScope | ast.cc:44-52 | Shallow mode is exactly the local test: a prepared scope whose immediate parent is a class declaration. A node without a scope fails it. The local test succeeding implies the result in both modes. |
| Ast.FindDeclStep | ast.cc:32-34 | On a local miss, deep lookup equals the parent's deep lookup; at a root it finds nothing. |
| Ast.FindDeclNearest | ast.cc:27-35 | Shadowing: deep lookup finds nothing exactly when no node on the ancestor chain binds the name. Otherwise it returns the binding of the nearest node that binds it. |
| Ast.FindDeclMonotone | ast.cc:30-31 | A declaration found by shallow lookup is also what deep lookup returns. |
| Ast.IsClassScopeChain | ast.cc:49-51 | The deep class-scope test holds exactly when some node on the ancestor chain passes the local test. |
| Ast.MemoizedKeepsTree | ast.cc:29 | Installing prepared scopes keeps the tree well formed. Every parent link, node kind and table seen by lookups stays the same. |
| Ast.FindDeclMemo | ast.cc:27-35 | The lookup as it runs, preparing each visited node, gives the same answer as the pure walk. It leaves an arena that differs only by prepared scopes, with the start node prepared. |
| Ast.MemoizedFindDecl | ast.cc:29-33 | Preparing any set of nodes changes no lookup result anywhere in the tree. |
| Ast.MemoizedIsClassScope | ast.cc:46-50 | Preparing any set of nodes changes no class-scope test anywhere in the tree. |
| Ast.FindDeclMemoSettles | ast.cc:29 | A scope is prepared only when absent: running the same lookup on the arena the first run left gives the same answer and the same arena. |
| Ast.IsClassScopeMemo | ast.cc:44-52 | The class-scope test as it runs, preparing each visited node, agrees with the pure test. Its arena differs only by prepared scopes. |
| Ast.IsClassScopeMemoSettles | ast.cc:44-52 | A scope is prepared only when absent: repeating the class-scope walk on the arena the first one left behind gives the same answer and prepares nothing. |
| ExprRules.CompoundRule | ast_expr.cc:66-84 | The operands' diagnostics come first. The type is the error type iff an operand has it, or both are non-null and not the same type object; only the second case adds exactly one IncompatibleOperands. Otherwise the type is the right operand's. |
| ExprRules.ArithmeticRule | ast_expr.cc:107-130 | Error operands propagate with no report. A null left skips the check and yields the right type. A non-null left not equivalent to the right adds exactly one IncompatibleOperands and gives the error type. |
| ExprRules.AssignRule | ast_expr.cc:139-155 | Error operands propagate with no report. A null side skips the check. Non-equivalent sides add exactly one IncompatibleOperands and give the error type. Otherwise the type is the target's. |
| ExprRules.ArrayAccessCheckRule | ast_expr.cc:181-195 | BracketsOnNonArray follows the base's diagnostics iff the base type is not an array. SubscriptNotInteger comes last iff the subscript type is not int. The two checks are independent. |
| ExprRules.ArrayAccessTypeRule | ast_expr.cc:197-207 | The type is the base's element type, or the error type for a non-array base, regardless of the subscript. The diagnostics are the check's followed by a second copy of the base's. |
| ExprRules.ClassNamed | ast_expr.cc:242-244 | A class is found exactly when the lookup finds a declaration and it is a class declaration; the result is that class's node. |
| ExprRules.VarNamed | ast_expr.cc:226-227 | A variable is found exactly when the lookup finds a variable declaration; the result is its declared type. |
| ExprRules.FnNamed | ast_expr.cc:281-282 | A function is found exactly when the lookup finds a function declaration; the result is its formal count. |
| ExprRules.MemberCheck | ast_expr.cc:296-311 | The base checks, first failure wins. A non-named base type gives FieldNotFoundInBase. An unresolved class gives IdentifierNotDeclared (class). A member the class scope lacks gives FieldNotFoundInBase. Each outcome fixes how often the base is re-evaluated. |
| ExprRules.FieldVerdict | ast_expr.cc:236-260 | After the base checks pass, InaccessibleField is reported exactly when the access is not within a class scope, after the base has been asked for its type three times; on success it has been asked twice. An earlier failure is reported unchanged. |
| ExprRules.FieldAccessRule | ast_expr.cc:221-261 | Without a base: the declared type of the variable found from the parent, else one IdentifierNotDeclared (variable) and the error type. With a base: always the error type, with the base's diagnostics once per evaluation plus the verdict's report. |
| ExprRules.CallCheckRule | ast_expr.cc:277-317 | The actuals' diagnostics come first. An unqualified call adds at most one diagnostic: IdentifierNotDeclared (function) if no function is found, NumArgsMismatch with the formal and actual counts if they differ, nothing iff they agree. |
| ExprRules.QualifiedCallIgnoresArity | ast_expr.cc:295-317 | A base-qualified call reports the same whatever the number of actuals. Everything between the actuals' diagnostics and its own report is a diagnostic of the base. |
| ExprRules.NewArrayCheckRule | ast_expr.cc:333-340 | NewArraySizeNotInteger follows the size's diagnostics iff the size type is not int. |
| ExprRules.NewArrayTypeRule | ast_expr.cc:342-345 | The type is always a fresh array type over the element type, allocated at this node, whatever the size check reported. |
| ExprRules.ThisCheckRule | ast_expr.cc:347-352 | Nothing is reported iff the node is in a class scope; otherwise exactly one ThisOutsideClassScope. |
| Checker.OperatorErrorPropagates | ast_expr.cc:66-74 | For compound, arithmetic and assignment nodes, an operand of the error type makes the node's type the error type. The node reports nothing beyond its operands' diagnostics. |
| Checker.OperatorNullOperands | ast_expr.cc:86-101 | An operator whose operands are missing or null has the null type and reports nothing of its own. |
| Checker.ArrayAccessReportsOnError | ast_expr.cc:181-195 | An error-typed base still draws BracketsOnNonArray and makes the access an error. An error-typed subscript still draws SubscriptNotInteger. |
| Checker.ArrayAccessTypeRepeatsBase | ast_expr.cc:197-207 | On any array-access node, GetType's diagnostics are Check's followed by the base's again. The type depends only on the base. |
| Checker.QualifiedFieldAccessIsError | ast_expr.cc:236-265 | A field access with a base always has the error type, and Check reports exactly what GetType reports. |
| Checker.BareFieldResolvesNearest | ast_expr.cc:224-235 | A bare field in deep mode has the declared type of the nearest variable binding above its parent. Without a binding, or when the nearest one is not a variable, it reports one IdentifierNotDeclared. |
| Checker.ThisOutsideClass | ast_expr.cc:347-356 | `this` always has the error type. In deep mode it reports nothing iff some node on its ancestor chain passes the local class-scope test; otherwise exactly one ThisOutsideClassScope. |
| Checker.CheckAllConcat | ast_expr.cc:278 | Checking a list of actuals reports each actual's diagnostics in list order: checking a concatenation is the concatenation of the checks. |
| Checker.ArithmeticActualsSilent | ast_expr.cc:103-105 | Arithmetic Check reports nothing, so actuals that are all arithmetic expressions contribute no diagnostics to a call, however they are typed. |
| Checker.UnqualifiedCallReports | ast_expr.cc:277-294 | On an unqualified call node the actuals' diagnostics come first. The call adds nothing iff the name resolves to a function with as many formals as actuals; a function with the wrong count draws NumArgsMismatch last. |
| Checker.NewArraysNeverIdentical | ast_expr.cc:76-80 | Two `new[]` expressions compared by a compound operator are always reported incompatible, since each allocates its own array type. |
| Checker.NewArrayIgnoresSize | ast_expr.cc:333-345 | A `new T[n]` node has the array-of-T type whatever the size. Check and GetType report the same. NewArraySizeNotInteger is added exactly when the size type is not int. |
| Checker.Operand | ast_expr.cc:86-101 | A missing operand has the null type and reports nothing, so a unary operator sees null on its left. |
| Checker.TypeOf | ast_expr.cc:221-356 | `this` and a qualified field access always have the error type. A `new T[n]` node has the array-of-T type allocated at that node. |
| Checker.CheckOf | ast_expr.cc:60-352 | Check of an arithmetic expression or a leaf reports nothing. Check of a compound, an assignment, a field access, `new[]` and `this` reports exactly what its GetType reports (lines 60-64, 103-105, 132-137, 263-265, 333-340, 347-352). |
| Checker.TypeOfMemoized | ast.cc:29-30 | Asking any expression for its type after scopes have been installed gives the same type and the same diagnostics. |
| Checker.CheckOfMemoized | ast_expr.cc:277-294 | Checking any expression after scopes have been installed reports the same diagnostics. This covers a call, whose actuals are checked, and may install scopes, before its callee is resolved. |
| Scenarios.SameClassCompareIncompatible | ast_expr.cc:76-80 | `A x; A y; x == y` has the error type and one IncompatibleOperands naming the two distinct named-type objects. |
| Scenarios.AssignStringToIntReported | ast_expr.cc:147-151 | `int a; a = "hello"` reports one IncompatibleOperands, when int is not equivalent to string. |
| Scenarios.CallWithTooManyArgsReported | ast_expr.cc:288-291 | `f(1, 2)` against a one-formal `f` reports exactly NumArgsMismatch("f", 1, 2). |
| Scenarios.NestedArithmeticActualReported | ast_expr.cc:60-64 | In `f((1 + "a") == 2)` against a one-formal `f`, the arithmetic clash is reported once, through the comparison that holds it, when int is not equivalent to string; the call adds nothing. |
| Scenarios.InheritedFieldResolves | ast_expr.cc:224-234 | A field inherited into a class's prepared table resolves from a method body with its declared type and no report. The body is in a class scope in deep mode but not in shallow mode. |
| Scenarios.ThisAtTopLevelReported | ast_expr.cc:347-356 | `this` in a global function body reports one ThisOutsideClassScope. |

## Left out

- Parsing (`y.tab.c`): the model starts from a parsed tree. The tree shapes
  it allows are those the parser builds. Unary minus, `!`, `++` and `--`
  have no left operand.
- `PrepareScope`, `Scope::Declare`, `CopyFromScope` and the hash table
  behind `Scope`: their bodies are not part of this model. A scope is a map
  from name to declaration, and the table a node would install is given.
  That includes a class's table with inherited members.
- `IsEquivalentTo`: its body is not part of this model. It is an arbitrary
  relation on types. Scenarios that need it to reject a pair say so in
  their requirements.
- `VarDecl::GetDeclaredType` and `FnDecl::GetFormals`: they are data (the
  declared type and the formal count).
- `Call::GetType` and the `GetType` of constants, `null`, `ReadInteger`,
  `ReadLine` and `new C` are not part of this model. A call node carries its
  result type. These leaves report nothing.
- Array types from `new[]` are allocated per node, not per evaluation.
  `NewArrayExpr::GetType` allocates a new object on every call. The model
  names the object by its node, so two evaluations of the same `new[]` give
  equal values. No rule here compares two evaluations of the same node by
  identity. `IsEquivalentTo` is applied to values, so it does not tell such
  objects apart either.
- `List::CheckAll` is not part of this model. The model takes it to call
  `Check()` on each element, in list order, and to report nothing else.
- Diagnostic text, locations, the global error count and printing: a
  diagnostic is recorded as its kind and arguments. Nodes are named by arena
  index.
- Memory and string handling (`strdup`, `strncpy` into operator tokens) and
  location joining.
- Floating-point constant values: only the `double` type matters.
- Null-pointer failures: the parser always links an expression to a parent,
  and a class declaration's `PrepareScope` always yields a table. The
  well-formedness predicate `Ast.WF` states both as assumptions rather than
  modelling the crash.

=== FILE: ast.dfy ===
/** The syntax tree as an arena, and the two upward walks of `ast.cc`:
    declaration lookup (`Node::FindDecl`) and the class-scope test
    (`Node::IsClassScope`).

    Nodes are numbered in allocation order. Every child is allocated, and
    numbered, before its parent: expression children are attached in the
    parent's constructor, function bodies just after it. So `parent(i) > i` on
    every node, which is the termination measure of both walks. Each node
    carries its memoized scope table (absent until first prepared) and the
    table that preparing it would install, which stands for the per-node
    `PrepareScope` whose bodies are not part of this model. */
module Ast {
  import opened Types

  type DeclId = nat

  /** A scope table: identifier name to declaration (case-sensitive). */
  type Scope = map<string, DeclId>

  /** Declarations, as far as the checker inspects them. */
  datatype Decl =
    | VarDecl(declaredType: Type)
    | FnDecl(formals: nat)
    | ClassDecl(node: nat)
    | InterfaceDecl

  /** Lookup mode of both walks. */
  datatype Lookup = Shallow | Deep

  /** What a node is. `ClassNode` is a `ClassDecl`; `OtherNode` is any other
      declaration or statement. The rest are expressions: `Compound` is a
      relational, equality or logical expression, which all use
      `CompoundExpr::GetType`; `Leaf` is an expression whose type is given
      (constants, `null`, `ReadInteger`, `ReadLine`, `new C`). */
  datatype Kind =
    | ClassNode
    | OtherNode
    | Compound(op: string, left: Option<nat>, right: Option<nat>)
    | Arithmetic(op: string, left: Option<nat>, right: Option<nat>)
    | Assign(op: string, left: Option<nat>, right: Option<nat>)
    | ArrayAccess(arr: nat, index: nat)
    | FieldAccess(base: Option<nat>, field: string)
    | Call(base: Option<nat>, callee: string, actuals: seq<nat>, resultType: Type)
    | NewArray(size: nat, elemType: Type)
    | This
    | Leaf(leafType: Type)

  datatype Node = Node(parent: Option<nat>, kind: Kind, scope: Option<Scope>, prepared: Option<Scope>)

  datatype Program = Program(nodes: seq<Node>, decls: seq<Decl>)

  predicate IsExpr(k: Kind) {
    !k.ClassNode? && !k.OtherNode?
  }

  function OptIndex(o: Option<nat>): seq<nat> {
    if o.Some? then [o.value] else []
  }

  /** The sub-expressions an expression node owns. */
  function Children(k: Kind): seq<nat> {
    match k
    case Compound(_, l, r) => OptIndex(l) + OptIndex(r)
    case Arithmetic(_, l, r) => OptIndex(l) + OptIndex(r)
    case Assign(_, l, r) => OptIndex(l) + OptIndex(r)
    case ArrayAccess(b, s) => [b, s]
    case FieldAccess(b, _) => OptIndex(b)
    case Call(b, _, a, _) => OptIndex(b) + a
    case NewArray(s, _) => [s]
    case _ => []
  }

  /** The table a node's scope holds once prepared: the memoized one if
      present, else the one preparation installs. */
  function ScopeOf(n: Node): Option<Scope> {
    if n.scope.Some? then n.scope else n.prepared
  }

  /** Installs the table preparation would build, only when none is
      installed yet. */
  function Prepare(n: Node): (m: Node)
    ensures ScopeOf(m) == ScopeOf(n) == m.scope
    ensures n.scope.Some? ==> m == n
    ensures m.parent == n.parent && m.kind == n.kind && m.prepared == n.prepared
  {
    n.(scope := ScopeOf(n))
  }

  predicate ScopeWithin(s: Option<Scope>, bound: nat) {
    s.Some? ==> forall d :: d in s.value.Values ==> d < bound
  }

  /** What the parser guarantees of one node. */
  predicate NodeOk(p: Program, j: nat)
    requires j < |p.nodes|
  {
    var n := p.nodes[j];
    && (n.parent.Some? ==> j < n.parent.value < |p.nodes|)
    && ScopeWithin(n.scope, |p.decls|)
    && ScopeWithin(n.prepared, |p.decls|)
    && (n.kind.ClassNode? ==> ScopeOf(n).Some?)
    && (IsExpr(n.kind) ==> n.parent.Some?)
    && forall c :: c in Children(n.kind) ==> c < j && p.nodes[c].parent == Some(j) && IsExpr(p.nodes[c].kind)
  }

  predicate DeclOk(p: Program, d: Decl) {
    d.ClassDecl? ==> d.node < |p.nodes| && p.nodes[d.node].kind.ClassNode?
  }

  /** A well-formed tree: parents allocated after children, children linked
      back to their owner, scope tables naming existing declarations, class
      declarations pointing at class nodes. */
  predicate WF(p: Program) {
    && (forall j :: 0 <= j < |p.nodes| ==> NodeOk(p, j))
    && (forall k :: 0 <= k < |p.decls| ==> DeclOk(p, p.decls[k]))
  }

  /** The node that owns `i`. */
  function ParentOf(p: Program, i: nat): (q: nat)
    requires WF(p) && i < |p.nodes| && p.nodes[i].parent.Some?
    ensures i < q < |p.nodes| && p.nodes[i].parent == Some(q)
  {
    assert NodeOk(p, i);
    p.nodes[i].parent.value
  }

  /** `c` is an expression owned by node `j`. */
  predicate Owned(p: Program, j: nat, c: nat) {
    c < j && c < |p.nodes| && p.nodes[c].parent == Some(j) && IsExpr(p.nodes[c].kind)
  }

  predicate OwnedOpt(p: Program, j: nat, o: Option<nat>) {
    o.Some? ==> Owned(p, j, o.value)
  }

  /** Every sub-expression named by node `j` is an expression it owns. */
  lemma ChildrenOwned(p: Program, j: nat)
    requires WF(p) && j < |p.nodes|
    ensures var k := p.nodes[j].kind;
            && (k.Compound? || k.Arithmetic? || k.Assign? ==> OwnedOpt(p, j, k.left) && OwnedOpt(p, j, k.right))
            && (k.ArrayAccess? ==> Owned(p, j, k.arr) && Owned(p, j, k.index))
            && (k.FieldAccess? ==> OwnedOpt(p, j, k.base))
            && (k.Call? ==> OwnedOpt(p, j, k.base) && forall a :: a in k.actuals ==> Owned(p, j, a))
            && (k.NewArray? ==> Owned(p, j, k.size))
            && (IsExpr(k) ==> p.nodes[j].parent.Some?)
  {
    assert NodeOk(p, j);
    var k := p.nodes[j].kind;
    if k.Compound? || k.Arithmetic? || k.Assign? {
      assert k.left.Some? ==> k.left.value in Children(k);
      assert k.right.Some? ==> k.right.value in Children(k);
    } else if k.ArrayAccess? {
      assert k.arr in Children(k) && k.index in Children(k);
    } else if k.FieldAccess? {
      assert k.base.Some? ==> k.base.value in Children(k);
    } else if k.Call? {
      assert k.base.Some? ==> k.base.value in Children(k);
      assert forall a :: a in k.actuals ==> a in Children(k);
    } else if k.NewArray? {
      assert k.size in Children(k);
    }
  }

  /** Node `j`'s prepared scope binds `x`. */
  predicate Binds(p: Program, j: nat, x: string)
    requires j < |p.nodes|
  {
    ScopeOf(p.nodes[j]).Some? && x in ScopeOf(p.nodes[j]).value
  }

  /** The declaration node `j`'s prepared scope binds `x` to. */
  function Bound(p: Program, j: nat, x: string): (d: DeclId)
    requires WF(p) && j < |p.nodes| && Binds(p, j, x)
    ensures d < |p.decls|
  {
    assert NodeOk(p, j);
    assert ScopeOf(p.nodes[j]).value[x] in ScopeOf(p.nodes[j]).value.Values;
    ScopeOf(p.nodes[j]).value[x]
  }

  /** The syntactic ancestor chain of `i`, starting at `i` and ending at the
      root. */
  function Chain(p: Program, i: nat): (c: seq<nat>)
    requires WF(p) && i < |p.nodes|
    ensures |c| >= 1 && c[0] == i
    ensures forall k :: 0 <= k < |c| ==> i <= c[k] < |p.nodes|
    ensures forall k :: 0 < k < |c| ==> p.nodes[c[k - 1]].parent == Some(c[k])
    ensures p.nodes[c[|c| - 1]].parent.None?
    decreases |p.nodes| - i
  {
    assert NodeOk(p, i);
    match p.nodes[i].parent
    case None => [i]
    case Some(q) => [i] + Chain(p, q)
  }

  /** `Node::FindDecl`: probe this node's prepared scope; on a miss, continue
      at the parent in deep mode, give up in shallow mode or at the root. */
  function FindDecl(p: Program, i: nat, x: string, mode: Lookup): (r: Option<DeclId>)
    requires WF(p) && i < |p.nodes|
    ensures Binds(p, i, x) ==> r == Some(Bound(p, i, x))
    ensures !Binds(p, i, x) && (mode == Shallow || p.nodes[i].parent.None?) ==> r.None?
    ensures r.Some? ==> r.value < |p.decls|
    decreases |p.nodes| - i
  {
    assert NodeOk(p, i);
    if Binds(p, i, x) then Some(Bound(p, i, x))
    else if mode == Deep && p.nodes[i].parent.Some? then FindDecl(p, p.nodes[i].parent.value, x, mode)
    else None
  }

  /** The per-node test of `Node::IsClassScope`: the node's scope is prepared
      and its immediate parent is a class declaration. */
  predicate LocalClassScope(p: Program, j: nat)
    requires WF(p) && j < |p.nodes|
  {
    assert NodeOk(p, j);
    && ScopeOf(p.nodes[j]).Some?
    && p.nodes[j].parent.Some?
    && p.nodes[p.nodes[j].parent.value].kind.ClassNode?
  }

  /** `Node::IsClassScope`. */
  function IsClassScope(p: Program, i: nat, mode: Lookup): (b: bool)
    requires WF(p) && i < |p.nodes|
    ensures mode == Shallow ==> (b <==> LocalClassScope(p, i))
    ensures ScopeOf(p.nodes[i]).None? && mode == Shallow ==> !b
    ensures LocalClassScope(p, i) ==> b
    decreases |p.nodes| - i
  {
    assert NodeOk(p, i);
    if LocalClassScope(p, i) then true
    else if mode == Deep && p.nodes[i].parent.Some? then IsClassScope(p, p.nodes[i].parent.value, mode)
    else false
  }

  /** Deep lookup on a local miss is the parent's deep lookup; at a root it
      finds nothing. */
  lemma FindDeclStep(p: Program, i: nat, x: string)
    requires WF(p) && i < |p.nodes| && !Binds(p, i, x)
    ensures p.nodes[i].parent.None? ==> FindDecl(p, i, x, Deep).None?
    ensures p.nodes[i].parent.Some? ==>
              p.nodes[i].parent.value < |p.nodes| &&
              FindDecl(p, i, x, Deep) == FindDecl(p, p.nodes[i].parent.value, x, Deep)
  {
    assert NodeOk(p, i);
  }

  /** `c` lists arena nodes. */
  predicate InArena(p: Program, c: seq<nat>) {
    forall k :: 0 <= k < |c| ==> c[k] < |p.nodes|
  }

  /** No node of `c` binds `x`. */
  predicate Unbound(p: Program, c: seq<nat>, x: string)
    requires InArena(p, c)
  {
    forall k :: 0 <= k < |c| ==> !Binds(p, c[k], x)
  }

  /** `c[k]` is the first node of `c` that binds `x`. */
  predicate NearestBinder(p: Program, c: seq<nat>, x: string, k: nat)
    requires InArena(p, c)
  {
    k < |c| && Binds(p, c[k], x) && Unbound(p, c[..k], x)
  }

  /** A node that does not bind `x`, put in front of `c`, moves the nearest
      binder one place down. */
  lemma NearestBinderShift(p: Program, i: nat, c: seq<nat>, x: string, k: nat)
    requires i < |p.nodes| && InArena(p, c) && !Binds(p, i, x) && NearestBinder(p, c, x, k)
    ensures InArena(p, [i] + c) && NearestBinder(p, [i] + c, x, k + 1)
  {
    var pre := ([i] + c)[..k + 1];
    assert pre == [i] + c[..k];
    forall j | 0 <= j < k + 1 ensures !Binds(p, pre[j], x) {
      if j > 0 { assert pre[j] == c[..k][j - 1]; }
    }
  }

  /** Shadowing: deep lookup returns the binding of the nearest node on the
      ancestor chain whose scope binds the name, and finds nothing exactly
      when no node on the chain binds it. */
  lemma {:induction false} FindDeclNearest(p: Program, i: nat, x: string)
    requires WF(p) && i < |p.nodes|
    ensures FindDecl(p, i, x, Deep).None? <==> Unbound(p, Chain(p, i), x)
    ensures FindDecl(p, i, x, Deep).Some? ==>
              exists k: nat :: NearestBinder(p, Chain(p, i), x, k)
                          && FindDecl(p, i, x, Deep) == Some(Bound(p, Chain(p, i)[k], x))
    decreases |p.nodes| - i
  {
    assert NodeOk(p, i);
    var c := Chain(p, i);
    if Binds(p, i, x) {
      assert NearestBinder(p, c, x, 0);
    } else if p.nodes[i].parent.None? {
      assert c == [i];
    } else {
      var q := p.nodes[i].parent.value;
      FindDeclStep(p, i, x);
      FindDeclNearest(p, q, x);
      var cq := Chain(p, q);
      assert c == [i] + cq;
      if FindDecl(p, q, x, Deep).Some? {
        var k: nat :| NearestBinder(p, cq, x, k) && FindDecl(p, q, x, Deep) == Some(Bound(p, cq[k], x));
        NearestBinderShift(p, i, cq, x, k);
        assert c[k + 1] == cq[k];
      } else {
        forall k | 0 <= k < |c| ensures !Binds(p, c[k], x) {
          if k > 0 { assert c[k] == cq[k - 1]; }
        }
      }
    }
  }

  /** A declaration found by shallow lookup is the one deep lookup finds. */
  lemma FindDeclMonotone(p: Program, i: nat, x: string)
    requires WF(p) && i < |p.nodes| && FindDecl(p, i, x, Shallow).Some?
    ensures FindDecl(p, i, x, Deep) == FindDecl(p, i, x, Shallow)
  {
  }

  /** Some node of `c` passes the per-node class-scope test. */
  predicate SomeClassScope(p: Program, c: seq<nat>)
    requires WF(p) && InArena(p, c)
  {
    exists k :: 0 <= k < |c| && LocalClassScope(p, c[k])
  }

  /** Deep class-scope test: true exactly when some node on the ancestor chain
      passes the per-node test. */
  lemma {:induction false} IsClassScopeChain(p: Program, i: nat)
    requires WF(p) && i < |p.nodes|
    ensures IsClassScope(p, i, Deep) <==> SomeClassScope(p, Chain(p, i))
    decreases |p.nodes| - i
  {
    assert NodeOk(p, i);
    var c := Chain(p, i);
    if LocalClassScope(p, i) {
      assert 0 < |c| && LocalClassScope(p, c[0]);
    } else if p.nodes[i].parent.None? {
      assert c == [i];
    } else {
      var q := p.nodes[i].parent.value;
      IsClassScopeChain(p, q);
      var cq := Chain(p, q);
      assert c == [i] + cq;
      if IsClassScope(p, q, Deep) {
        var k :| 0 <= k < |cq| && LocalClassScope(p, cq[k]);
        assert c[k + 1] == cq[k];
      } else {
        forall k | 0 <= k < |c| ensures !LocalClassScope(p, c[k]) {
          if k > 0 { assert c[k] == cq[k - 1]; }
        }
      }
    }
  }

  // ---------------------------------------------------------------------
  // Memoized preparation: the walks as the source runs them, installing each
  // visited node's scope on the way.

  /** `q` differs from `p` only by preparing some nodes. */
  predicate Memoized(p: Program, q: Program) {
    && |q.nodes| == |p.nodes|
    && q.decls == p.decls
    && forall k :: 0 <= k < |p.nodes| ==> q.nodes[k] == p.nodes[k] || q.nodes[k] == Prepare(p.nodes[k])
  }

  function PrepareAt(p: Program, i: nat): (q: Program)
    requires WF(p) && i < |p.nodes|
    ensures Memoized(p, q)
    ensures q.nodes[i] == Prepare(p.nodes[i])
    ensures forall k :: 0 <= k < |p.nodes| && k != i ==> q.nodes[k] == p.nodes[k]
  {
    p.(nodes := p.nodes[i := Prepare(p.nodes[i])])
  }

  /** Preparing nodes keeps the tree well formed and changes no node's
      prepared table. */
  lemma MemoizedKeepsTree(p: Program, q: Program)
    requires WF(p) && Memoized(p, q)
    ensures WF(q)
    ensures forall k :: 0 <= k < |p.nodes| ==>
              q.nodes[k].parent == p.nodes[k].parent && q.nodes[k].kind == p.nodes[k].kind
              && ScopeOf(q.nodes[k]) == ScopeOf(p.nodes[k])
  {
    forall j | 0 <= j < |q.nodes| ensures NodeOk(q, j) {
      assert NodeOk(p, j);
      forall c | c in Children(q.nodes[j].kind)
        ensures c < j && q.nodes[c].parent == Some(j) && IsExpr(q.nodes[c].kind)
      {
        assert c < |p.nodes|;
      }
    }
    forall k | 0 <= k < |q.decls| ensures DeclOk(q, q.decls[k]) {
      assert DeclOk(p, p.decls[k]);
    }
  }

  lemma MemoizedTrans(p: Program, q: Program, s: Program)
    requires Memoized(p, q) && Memoized(q, s)
    ensures Memoized(p, s)
  {
  }

  /** `Node::FindDecl` as it runs: the answer, and the arena with every
      visited node's scope prepared. */
  function FindDeclMemo(p: Program, i: nat, x: string, mode: Lookup): (r: (Option<DeclId>, Program))
    requires WF(p) && i < |p.nodes|
    ensures r.0 == FindDecl(p, i, x, mode)
    ensures Memoized(p, r.1) && WF(r.1)
    ensures r.1.nodes[i] == Prepare(p.nodes[i])
    decreases |p.nodes| - i
  {
    assert NodeOk(p, i);
    var p1 := PrepareAt(p, i);
    MemoizedKeepsTree(p, p1);
    var s := p1.nodes[i].scope;
    if s.Some? && x in s.value then (Some(s.value[x]), p1)
    else if mode == Deep && p1.nodes[i].parent.Some? then
      var r := FindDeclMemo(p1, p1.nodes[i].parent.value, x, mode);
      MemoizedFindDecl(p, p1, p1.nodes[i].parent.value, x, mode);
      MemoizedTrans(p, p1, r.1);
      (r.0, r.1)
    else (None, p1)
  }

  /** Preparing nodes changes no lookup anywhere in the tree. */
  lemma {:induction false} MemoizedFindDecl(p: Program, q: Program, i: nat, x: string, mode: Lookup)
    requires WF(p) && Memoized(p, q) && i < |p.nodes|
    ensures WF(q) && FindDecl(q, i, x, mode) == FindDecl(p, i, x, mode)
    decreases |p.nodes| - i
  {
    MemoizedKeepsTree(p, q);
    assert NodeOk(p, i);
    if !Binds(p, i, x) && mode == Deep && p.nodes[i].parent.Some? {
      MemoizedFindDecl(p, q, p.nodes[i].parent.value, x, mode);
    }
  }

  /** Preparing nodes changes no class-scope test anywhere in the tree. */
  lemma {:induction false} MemoizedIsClassScope(p: Program, q: Program, i: nat, mode: Lookup)
    requires WF(p) && Memoized(p, q) && i < |p.nodes|
    ensures WF(q) && IsClassScope(q, i, mode) == IsClassScope(p, i, mode)
    decreases |p.nodes| - i
  {
    MemoizedKeepsTree(p, q);
    assert NodeOk(p, i);
    assert LocalClassScope(q, i) == LocalClassScope(p, i);
    if !LocalClassScope(p, i) && mode == Deep && p.nodes[i].parent.Some? {
      MemoizedIsClassScope(p, q, p.nodes[i].parent.value, mode);
    }
  }

  /** A scope is prepared only when absent: repeating a lookup on the arena
      the first one left behind gives the same answer and prepares nothing. */
  lemma {:induction false} FindDeclMemoSettles(p: Program, i: nat, x: string, mode: Lookup)
    requires WF(p) && i < |p.nodes|
    ensures FindDeclMemo(FindDeclMemo(p, i, x, mode).1, i, x, mode) == FindDeclMemo(p, i, x, mode)
    decreases |p.nodes| - i
  {
    assert NodeOk(p, i);
    var q := FindDeclMemo(p, i, x, mode).1;
    var p1 := PrepareAt(p, i);
    MemoizedKeepsTree(p, p1);
    assert PrepareAt(q, i).nodes == q.nodes;
    assert PrepareAt(q, i) == q;
    var s := p1.nodes[i].scope;
    if !(s.Some? && x in s.value) && mode == Deep && p1.nodes[i].parent.Some? {
      FindDeclMemoSettles(p1, p1.nodes[i].parent.value, x, mode);
    }
  }

  /** `Node::IsClassScope` as it runs, preparing every visited node. */
  function IsClassScopeMemo(p: Program, i: nat, mode: Lookup): (r: (bool, Program))
    requires WF(p) && i < |p.nodes|
    ensures r.0 == IsClassScope(p, i, mode)
    ensures Memoized(p, r.1) && WF(r.1)
    ensures r.1.nodes[i] == Prepare(p.nodes[i])
    decreases |p.nodes| - i
  {
    assert NodeOk(p, i);
    var p1 := PrepareAt(p, i);
    MemoizedKeepsTree(p, p1);
    var n := p1.nodes[i];
    if n.scope.Some? && n.parent.Some? && p1.nodes[n.parent.value].kind.ClassNode? then (true, p1)
    else if mode == Deep && n.parent.Some? then
      var r := IsClassScopeMemo(p1, n.parent.value, mode);
      MemoizedIsClassScope(p, p1, n.parent.value, mode);
      MemoizedTrans(p, p1, r.1);
      (r.0, r.1)
    else (false, p1)
  }

  /** Likewise for the class-scope walk: repeating it on the arena the first
      one left behind gives the same answer and prepares nothing. */
  lemma {:induction false} IsClassScopeMemoSettles(p: Program, i: nat, mode: Lookup)
    requires WF(p) && i < |p.nodes|
    ensures IsClassScopeMemo(IsClassScopeMemo(p, i, mode).1, i, mode) == IsClassScopeMemo(p, i, mode)
    decreases |p.nodes| - i
  {
    assert NodeOk(p, i);
    var q := IsClassScopeMemo(p, i, mode).1;
    var p1 := PrepareAt(p, i);
    MemoizedKeepsTree(p, p1);
    assert PrepareAt(q, i).nodes == q.nodes;
    assert PrepareAt(q, i) == q;
    var n := p1.nodes[i];
    if !(n.scope.Some? && n.parent.Some? && p1.nodes[n.parent.value].kind.ClassNode?) && mode == Deep && n.parent.Some? {
      IsClassScopeMemoSettles(p1, n.parent.value, mode);
    }
  }
}

=== FILE: checker.dfy ===
/** `GetType` and `Check` of every expression kind, over the arena, and what
    they guarantee across the whole tree.

    `TypeOf(p, ctx, i)` is what `GetType()` on expression node `i` returns
    together with the diagnostics it reports; `CheckOf(p, ctx, i)` is what
    `Check()` reports. Both read the prepared scopes without installing them:
    `TypeOfMemoized` and `CheckOfMemoized` show that installing them, as the
    source does on the way, changes no answer. */
module Checker {
  import opened Types
  import opened Ast
  import opened ExprRules

  /** `GetLeft`/`GetRight`: a missing operand has the null type. */
  function Operand(p: Program, ctx: Ctx, i: nat, o: Option<nat>): (e: Typed)
    requires WF(p) && i < |p.nodes|
    requires OwnedOpt(p, i, o)
    ensures o.None? ==> e == Absent
    decreases i, 0
  {
    if o.None? then Absent else TypeOf(p, ctx, o.value)
  }

  /** `GetType()` of expression node `i`. */
  function TypeOf(p: Program, ctx: Ctx, i: nat): (e: Typed)
    requires WF(p) && i < |p.nodes| && IsExpr(p.nodes[i].kind)
    ensures p.nodes[i].kind.This? ==> e.ty == Error
    ensures p.nodes[i].kind.FieldAccess? && p.nodes[i].kind.base.Some? ==> e.ty == Error
    ensures p.nodes[i].kind.NewArray? ==> e.ty == Array(p.nodes[i].kind.elemType, NewArrayAt(i))
    decreases i, 1
  {
    ChildrenOwned(p, i);
    match p.nodes[i].kind
    case Compound(op, l, r) => CompoundRule(op, Operand(p, ctx, i, l), Operand(p, ctx, i, r))
    case Arithmetic(op, l, r) => ArithmeticRule(ctx.equiv, op, Operand(p, ctx, i, l), Operand(p, ctx, i, r))
    case Assign(op, l, r) => AssignRule(ctx.equiv, op, Operand(p, ctx, i, l), Operand(p, ctx, i, r))
    case ArrayAccess(a, x) => ArrayAccessTypeRule(a, x, TypeOf(p, ctx, a), TypeOf(p, ctx, x))
    case FieldAccess(b, f) =>
      FieldAccessRule(p, ctx, i, f, if b.Some? then Some(TypeOf(p, ctx, b.value)) else None)
    case Call(_, _, _, t) => Typed(t, [])
    case NewArray(s, et) => NewArrayTypeRule(i, s, et, TypeOf(p, ctx, s))
    case This => Typed(Error, ThisCheckRule(i, IsClassScope(p, i, ctx.classMode)))
    case Leaf(t) => Typed(t, [])
  }

  /** `Check()` of expression node `i`. */
  function CheckOf(p: Program, ctx: Ctx, i: nat): (d: seq<Diag>)
    requires WF(p) && i < |p.nodes| && IsExpr(p.nodes[i].kind)
    ensures p.nodes[i].kind.Arithmetic? || p.nodes[i].kind.Leaf? ==> d == []
    ensures !p.nodes[i].kind.Arithmetic? && !p.nodes[i].kind.ArrayAccess? && !p.nodes[i].kind.Call? ==>
              d == TypeOf(p, ctx, i).diags
    decreases i, 1, 0
  {
    ChildrenOwned(p, i);
    match p.nodes[i].kind
    case Compound(_, _, _) => TypeOf(p, ctx, i).diags
    case Arithmetic(_, _, _) => []
    case Assign(_, _, _) => TypeOf(p, ctx, i).diags
    case ArrayAccess(a, x) => ArrayAccessCheckRule(a, x, TypeOf(p, ctx, a), TypeOf(p, ctx, x))
    case FieldAccess(_, _) => TypeOf(p, ctx, i).diags
    case Call(b, f, acts, _) =>
      CallCheckRule(p, ctx, i, f, if b.Some? then Some(TypeOf(p, ctx, b.value)) else None,
                    CheckAll(p, ctx, i, acts), |acts|)
    case NewArray(s, _) => NewArrayCheckRule(s, TypeOf(p, ctx, s))
    case This => ThisCheckRule(i, IsClassScope(p, i, ctx.classMode))
    case Leaf(_) => []
  }

  /** The actuals of a call at node `i`: all expressions owned by `i`. */
  predicate OwnedExprs(p: Program, i: nat, acts: seq<nat>) {
    forall a :: a in acts ==> Owned(p, i, a)
  }

  /** `List::CheckAll`: check each actual in order. */
  function CheckAll(p: Program, ctx: Ctx, i: nat, acts: seq<nat>): seq<Diag>
    requires WF(p) && i < |p.nodes| && OwnedExprs(p, i, acts)
    decreases i, 0, |acts|
  {
    if acts == [] then []
    else
      assert acts[0] in acts;
      CheckOf(p, ctx, acts[0]) + CheckAll(p, ctx, i, acts[1..])
  }

  predicate IsOperator(k: Kind) {
    k.Compound? || k.Arithmetic? || k.Assign?
  }

  /** The outcomes of an operator node's two operands. */
  function OperandsOf(p: Program, ctx: Ctx, i: nat): (Typed, Typed)
    requires WF(p) && i < |p.nodes| && IsOperator(p.nodes[i].kind)
  {
    ChildrenOwned(p, i);
    var k := p.nodes[i].kind;
    (Operand(p, ctx, i, k.left), Operand(p, ctx, i, k.right))
  }

  /** No cascade through operators: once an operand has the error type, the
      operator yields the error type and reports nothing beyond its
      operands' diagnostics. */
  lemma OperatorErrorPropagates(p: Program, ctx: Ctx, i: nat)
    requires WF(p) && i < |p.nodes| && IsOperator(p.nodes[i].kind)
    requires OperandsOf(p, ctx, i).0.ty == Error || OperandsOf(p, ctx, i).1.ty == Error
    ensures TypeOf(p, ctx, i) == Typed(Error, OperandsOf(p, ctx, i).0.diags + OperandsOf(p, ctx, i).1.diags)
  {
    ChildrenOwned(p, i);
  }

  /** An operator with both operands absent or of type null reports nothing of
      its own and has the null type. */
  lemma OperatorNullOperands(p: Program, ctx: Ctx, i: nat)
    requires WF(p) && i < |p.nodes| && IsOperator(p.nodes[i].kind)
    requires OperandsOf(p, ctx, i).0.ty == Null && OperandsOf(p, ctx, i).1.ty == Null
    ensures TypeOf(p, ctx, i) == Typed(Null, OperandsOf(p, ctx, i).0.diags + OperandsOf(p, ctx, i).1.diags)
  {
    ChildrenOwned(p, i);
  }

  /** Array access does not propagate silently: a base of the error type is not
      an array, so `BracketsOnNonArray` is reported on top of the base's own
      diagnostics, and a subscript of the error type draws
      `SubscriptNotInteger`. */
  lemma ArrayAccessReportsOnError(p: Program, ctx: Ctx, i: nat)
    requires WF(p) && i < |p.nodes| && p.nodes[i].kind.ArrayAccess?
    ensures Owned(p, i, p.nodes[i].kind.arr) && Owned(p, i, p.nodes[i].kind.index)
    ensures TypeOf(p, ctx, p.nodes[i].kind.arr).ty == Error ==>
              BracketsOnNonArray(p.nodes[i].kind.arr) in CheckOf(p, ctx, i) && TypeOf(p, ctx, i).ty == Error
    ensures TypeOf(p, ctx, p.nodes[i].kind.index).ty == Error ==>
              SubscriptNotInteger(p.nodes[i].kind.index) in CheckOf(p, ctx, i)
  {
    ChildrenOwned(p, i);
    var k := p.nodes[i].kind;
    var d := CheckOf(p, ctx, i);
    var b := TypeOf(p, ctx, k.arr);
    if b.ty == Error {
      assert d[|b.diags|] == BracketsOnNonArray(k.arr);
    }
  }

  /** `ArrayAccess::GetType` checks and then asks the base again: its
      diagnostics are those of `Check` followed by a second copy of the
      base's. The type depends on the base alone. */
  lemma ArrayAccessTypeRepeatsBase(p: Program, ctx: Ctx, i: nat)
    requires WF(p) && i < |p.nodes| && p.nodes[i].kind.ArrayAccess?
    ensures Owned(p, i, p.nodes[i].kind.arr)
    ensures TypeOf(p, ctx, i).diags == CheckOf(p, ctx, i) + TypeOf(p, ctx, p.nodes[i].kind.arr).diags
    ensures TypeOf(p, ctx, p.nodes[i].kind.arr).ty.Array? ==>
              TypeOf(p, ctx, i).ty == TypeOf(p, ctx, p.nodes[i].kind.arr).ty.elem
    ensures !TypeOf(p, ctx, p.nodes[i].kind.arr).ty.Array? ==> TypeOf(p, ctx, i).ty == Error
  {
    ChildrenOwned(p, i);
  }

  /** A field access through a base never has a usable type: every path of
      `FieldAccess::GetType` with a base returns the error type, even when
      the field exists and the access is inside a class. */
  lemma QualifiedFieldAccessIsError(p: Program, ctx: Ctx, i: nat)
    requires WF(p) && i < |p.nodes| && p.nodes[i].kind.FieldAccess? && p.nodes[i].kind.base.Some?
    ensures TypeOf(p, ctx, i).ty == Error
    ensures CheckOf(p, ctx, i) == TypeOf(p, ctx, i).diags
  {
    ChildrenOwned(p, i);
  }

  /** A bare field access resolves, from its parent in deep mode, to the
      nearest declaration of the name on the ancestor chain; it has that
      variable's declared type and reports nothing, or reports one
      `IdentifierNotDeclared` when there is no such declaration or the
      nearest one is not a variable. */
  lemma {:induction false} BareFieldResolvesNearest(p: Program, ctx: Ctx, i: nat)
    requires WF(p) && i < |p.nodes| && p.nodes[i].kind.FieldAccess? && p.nodes[i].kind.base.None?
    requires ctx.findMode == Deep
    ensures p.nodes[i].parent.Some?
    ensures Unbound(p, Chain(p, ParentOf(p, i)), p.nodes[i].kind.field) ==>
              TypeOf(p, ctx, i) == Typed(Error, [IdentifierNotDeclared(p.nodes[i].kind.field, LookingForVariable)])
    ensures forall k: nat :: NearestBinder(p, Chain(p, ParentOf(p, i)), p.nodes[i].kind.field, k) ==>
              var d := p.decls[Bound(p, Chain(p, ParentOf(p, i))[k], p.nodes[i].kind.field)];
              TypeOf(p, ctx, i) == (if d.VarDecl? then Typed(d.declaredType, [])
                                    else Typed(Error, [IdentifierNotDeclared(p.nodes[i].kind.field, LookingForVariable)]))
  {
    ChildrenOwned(p, i);
    var q := ParentOf(p, i);
    var f := p.nodes[i].kind.field;
    var c := Chain(p, q);
    FindDeclNearest(p, q, f);
    forall k: nat | NearestBinder(p, c, f, k)
      ensures FindDecl(p, q, f, Deep) == Some(Bound(p, c[k], f))
    {
      var k' : nat :| NearestBinder(p, c, f, k') && FindDecl(p, q, f, Deep) == Some(Bound(p, c[k'], f));
      NearestBinderUnique(p, c, f, k, k');
    }
  }

  /** The nearest binder is unique. */
  lemma NearestBinderUnique(p: Program, c: seq<nat>, x: string, k1: nat, k2: nat)
    requires InArena(p, c) && NearestBinder(p, c, x, k1) && NearestBinder(p, c, x, k2)
    ensures k1 == k2
  {
  }

  /** `this` in deep mode: it always has the error type, and it reports one
      `ThisOutsideClassScope` exactly when no node from it up to the root is
      a prepared scope directly inside a class declaration. */
  lemma {:induction false} ThisOutsideClass(p: Program, ctx: Ctx, i: nat)
    requires WF(p) && i < |p.nodes| && p.nodes[i].kind.This? && ctx.classMode == Deep
    ensures TypeOf(p, ctx, i).ty == Error && TypeOf(p, ctx, i).diags == CheckOf(p, ctx, i)
    ensures CheckOf(p, ctx, i) == [] <==> SomeClassScope(p, Chain(p, i))
    ensures !SomeClassScope(p, Chain(p, i)) ==> CheckOf(p, ctx, i) == [ThisOutsideClassScope(i)]
  {
    IsClassScopeChain(p, i);
  }

  /** Checking a list of actuals reports the diagnostics of each actual, in
      list order. */
  lemma {:induction false} CheckAllConcat(p: Program, ctx: Ctx, i: nat, a: seq<nat>, b: seq<nat>)
    requires WF(p) && i < |p.nodes| && OwnedExprs(p, i, a) && OwnedExprs(p, i, b)
    ensures OwnedExprs(p, i, a + b)
    ensures CheckAll(p, ctx, i, a + b) == CheckAll(p, ctx, i, a) + CheckAll(p, ctx, i, b)
    decreases |a|
  {
    if a == [] {
      assert a + b == b;
    } else {
      assert (a + b)[0] == a[0];
      assert (a + b)[1..] == a[1..] + b;
      CheckAllConcat(p, ctx, i, a[1..], b);
    }
  }

  /** `ArithmeticExpr::Check` reports nothing, so a call whose actuals are
      all arithmetic expressions reports nothing for them, however they are
      typed. */
  lemma {:induction false} ArithmeticActualsSilent(p: Program, ctx: Ctx, i: nat, acts: seq<nat>)
    requires WF(p) && i < |p.nodes| && OwnedExprs(p, i, acts)
    requires forall a :: a in acts ==> p.nodes[a].kind.Arithmetic?
    ensures CheckAll(p, ctx, i, acts) == []
    decreases |acts|
  {
    if acts != [] {
      assert acts[0] in acts;
      ArithmeticActualsSilent(p, ctx, i, acts[1..]);
    }
  }

  /** An unqualified call reports the diagnostics of its actuals and then at
      most one of its own: `IdentifierNotDeclared` when the name does not
      resolve to a function, `NumArgsMismatch` when the counts differ. */
  lemma UnqualifiedCallReports(p: Program, ctx: Ctx, i: nat)
    requires WF(p) && i < |p.nodes| && p.nodes[i].kind.Call? && p.nodes[i].kind.base.None?
    ensures p.nodes[i].parent.Some? && OwnedExprs(p, i, p.nodes[i].kind.actuals)
    ensures CheckAll(p, ctx, i, p.nodes[i].kind.actuals) <= CheckOf(p, ctx, i)
    ensures |CheckOf(p, ctx, i)| == |CheckAll(p, ctx, i, p.nodes[i].kind.actuals)| <==>
              FnNamed(p, ctx, ParentOf(p, i), p.nodes[i].kind.callee) == Some(|p.nodes[i].kind.actuals|)
    ensures FnNamed(p, ctx, ParentOf(p, i), p.nodes[i].kind.callee).Some? ==>
              |CheckOf(p, ctx, i)| == |CheckAll(p, ctx, i, p.nodes[i].kind.actuals)| ||
              CheckOf(p, ctx, i)[|CheckOf(p, ctx, i)| - 1] ==
                NumArgsMismatch(p.nodes[i].kind.callee, FnNamed(p, ctx, ParentOf(p, i), p.nodes[i].kind.callee).value,
                                |p.nodes[i].kind.actuals|)
  {
    ChildrenOwned(p, i);
  }

  /** Operand `o` is present and is a `new[]` expression. */
  predicate IsNewArray(p: Program, o: Option<nat>) {
    o.Some? && o.value < |p.nodes| && p.nodes[o.value].kind.NewArray?
  }

  /** Two `new[]` expressions on either side of a relational, equality or
      logical operator never denote the same type object, so the operator
      always reports them incompatible. */
  lemma NewArraysNeverIdentical(p: Program, ctx: Ctx, i: nat)
    requires WF(p) && i < |p.nodes| && p.nodes[i].kind.Compound?
    requires IsNewArray(p, p.nodes[i].kind.left) && IsNewArray(p, p.nodes[i].kind.right)
    requires p.nodes[i].kind.left != p.nodes[i].kind.right
    ensures TypeOf(p, ctx, i).ty == Error
    ensures var d := TypeOf(p, ctx, i).diags; |d| > 0 && d[|d| - 1].IncompatibleOperands?
  {
    ChildrenOwned(p, i);
    var k := p.nodes[i].kind;
    var l, r := k.left.value, k.right.value;
    assert TypeOf(p, ctx, l).ty == Array(p.nodes[l].kind.elemType, NewArrayAt(l));
    assert TypeOf(p, ctx, r).ty == Array(p.nodes[r].kind.elemType, NewArrayAt(r));
    assert IdentityClash(Operand(p, ctx, i, k.left).ty, Operand(p, ctx, i, k.right).ty);
  }

  /** `new T[size]` has the array-of-`T` type it allocates whatever its size
      expression's type, and reports `NewArraySizeNotInteger` exactly when
      that type is not `int`. */
  lemma NewArrayIgnoresSize(p: Program, ctx: Ctx, i: nat)
    requires WF(p) && i < |p.nodes| && p.nodes[i].kind.NewArray?
    ensures Owned(p, i, p.nodes[i].kind.size)
    ensures TypeOf(p, ctx, i).ty == Array(p.nodes[i].kind.elemType, NewArrayAt(i))
    ensures TypeOf(p, ctx, i).diags == CheckOf(p, ctx, i)
    ensures CheckOf(p, ctx, i) == TypeOf(p, ctx, p.nodes[i].kind.size).diags <==>
              TypeOf(p, ctx, p.nodes[i].kind.size).ty == Int
    ensures TypeOf(p, ctx, p.nodes[i].kind.size).ty != Int ==>
              CheckOf(p, ctx, i) == TypeOf(p, ctx, p.nodes[i].kind.size).diags + [NewArraySizeNotInteger(p.nodes[i].kind.size)]
  {
    ChildrenOwned(p, i);
  }

  // ---------------------------------------------------------------------
  // Asking again after the scopes have been installed.

  /** The name lookups the rules make see the same answers after some scopes
      are installed. */
  lemma RulesMemoized(p: Program, q: Program, ctx: Ctx, from: nat, name: string, bt: Type)
    requires WF(p) && Memoized(p, q) && from < |p.nodes|
    ensures WF(q)
    ensures VarNamed(q, ctx, from, name) == VarNamed(p, ctx, from, name)
    ensures FnNamed(q, ctx, from, name) == FnNamed(p, ctx, from, name)
    ensures MemberCheck(q, ctx, from, name, bt) == MemberCheck(p, ctx, from, name, bt)
  {
    MemoizedKeepsTree(p, q);
    MemoizedFindDecl(p, q, from, name, ctx.findMode);
    if bt.Named? {
      MemoizedFindDecl(p, q, from, bt.name, ctx.findMode);
    }
  }

  /** Asking an expression for its type again, after the first request has
      installed scopes on the way, gives the same type and the same
      diagnostics. */
  lemma {:induction false} TypeOfMemoized(p: Program, q: Program, ctx: Ctx, i: nat)
    requires WF(p) && Memoized(p, q) && i < |p.nodes| && IsExpr(p.nodes[i].kind)
    ensures WF(q) && IsExpr(q.nodes[i].kind)
    ensures TypeOf(q, ctx, i) == TypeOf(p, ctx, i)
    decreases i
  {
    MemoizedKeepsTree(p, q);
    ChildrenOwned(p, i);
    match p.nodes[i].kind
    case Compound(op, l, r) =>
      if l.Some? { TypeOfMemoized(p, q, ctx, l.value); }
      if r.Some? { TypeOfMemoized(p, q, ctx, r.value); }
    case Arithmetic(op, l, r) =>
      if l.Some? { TypeOfMemoized(p, q, ctx, l.value); }
      if r.Some? { TypeOfMemoized(p, q, ctx, r.value); }
    case Assign(op, l, r) =>
      if l.Some? { TypeOfMemoized(p, q, ctx, l.value); }
      if r.Some? { TypeOfMemoized(p, q, ctx, r.value); }
    case ArrayAccess(a, x) =>
      TypeOfMemoized(p, q, ctx, a);
      TypeOfMemoized(p, q, ctx, x);
    case FieldAccess(b, f) =>
      var up := ParentOf(p, i);
      if b.Some? {
        TypeOfMemoized(p, q, ctx, b.value);
        var bt := TypeOf(p, ctx, b.value).ty;
        RulesMemoized(p, q, ctx, up, f, bt);
        MemoizedIsClassScope(p, q, i, ctx.classMode);
        assert FieldVerdict(q, ctx, i, f, bt) == FieldVerdict(p, ctx, i, f, bt);
      } else {
        RulesMemoized(p, q, ctx, up, f, Error);
      }
    case Call(_, _, _, _) =>
    case NewArray(s, _) =>
      TypeOfMemoized(p, q, ctx, s);
    case This =>
      MemoizedIsClassScope(p, q, i, ctx.classMode);
    case Leaf(_) =>
  }

  /** Checking an expression again, after earlier checks have installed
      scopes on the way, reports the same diagnostics. A call checks its
      actuals, which may install scopes, before it resolves its callee. */
  lemma {:induction false} CheckOfMemoized(p: Program, q: Program, ctx: Ctx, i: nat)
    requires WF(p) && Memoized(p, q) && i < |p.nodes| && IsExpr(p.nodes[i].kind)
    ensures WF(q) && IsExpr(q.nodes[i].kind)
    ensures CheckOf(q, ctx, i) == CheckOf(p, ctx, i)
    decreases i, 1
  {
    MemoizedKeepsTree(p, q);
    ChildrenOwned(p, i);
    match p.nodes[i].kind
    case Compound(_, _, _) => TypeOfMemoized(p, q, ctx, i);
    case Arithmetic(_, _, _) =>
    case Assign(_, _, _) => TypeOfMemoized(p, q, ctx, i);
    case ArrayAccess(a, x) =>
      TypeOfMemoized(p, q, ctx, a);
      TypeOfMemoized(p, q, ctx, x);
    case FieldAccess(_, _) => TypeOfMemoized(p, q, ctx, i);
    case Call(b, f, acts, _) =>
      var up := ParentOf(p, i);
      CheckAllMemoized(p, q, ctx, i, acts);
      if b.Some? {
        TypeOfMemoized(p, q, ctx, b.value);
        RulesMemoized(p, q, ctx, up, f, TypeOf(p, ctx, b.value).ty);
      } else {
        RulesMemoized(p, q, ctx, up, f, Error);
      }
    case NewArray(s, _) => TypeOfMemoized(p, q, ctx, s);
    case This => MemoizedIsClassScope(p, q, i, ctx.classMode);
    case Leaf(_) =>
  }

  /** Checking a call's actuals again after scopes have been installed
      reports the same diagnostics. */
  lemma {:induction false} CheckAllMemoized(p: Program, q: Program, ctx: Ctx, i: nat, acts: seq<nat>)
    requires WF(p) && Memoized(p, q) && i < |p.nodes| && OwnedExprs(p, i, acts)
    ensures WF(q) && OwnedExprs(q, i, acts)
    ensures CheckAll(q, ctx, i, acts) == CheckAll(p, ctx, i, acts)
    decreases i, 0, |acts|
  {
    MemoizedKeepsTree(p, q);
    if acts != [] {
      assert acts[0] in acts;
      CheckOfMemoized(p, q, ctx, acts[0]);
      CheckAllMemoized(p, q, ctx, i, acts[1..]);
    }
  }
}

=== FILE: expr_rules.dfy ===
/** The per-expression rules of `ast_expr.cc`, each stated over the already
    computed results of its operands.

    A rule receives, for every operand, the `Typed` outcome of asking that
    operand for its type. Asking again yields the same outcome and reports
    the same diagnostics again, so a rule that re-evaluates an operand
    repeats that operand's diagnostics (`Repeat`). Where a rule reports a
    diagnostic whose argument is a re-evaluated type, the argument is
    evaluated, and its diagnostics reported, before the rule's own. */
module ExprRules {
  import opened Types
  import opened Ast

  /** What the checker takes as given, not modelled here: the body of
      `IsEquivalentTo`, and the default lookup modes of `FindDecl` and
      `IsClassScope`. */
  datatype Ctx = Ctx(equiv: Equivalence, findMode: Lookup, classMode: Lookup)

  function Flag(c: bool): nat {
    if c then 1 else 0
  }

  /** Neither operand type is the error sentinel. */
  predicate NoError(a: Type, b: Type) {
    a != Error && b != Error
  }

  /** `CompoundExpr::GetType` rejects two non-null operand types that are
      not the same type object. */
  predicate IdentityClash(a: Type, b: Type) {
    NoError(a, b) && a != Null && b != Null && a != b
  }

  /** `ArithmeticExpr::GetType` rejects a non-null left operand type that is
      not equivalent to the right one; a null left skips the check. */
  predicate ArithmeticClash(eq: Equivalence, a: Type, b: Type) {
    NoError(a, b) && a != Null && !eq(a, b)
  }

  /** `AssignExpr::GetType` rejects two non-null sides that are not
      equivalent; a null on either side skips the check. */
  predicate AssignClash(eq: Equivalence, a: Type, b: Type) {
    NoError(a, b) && a != Null && b != Null && !eq(a, b)
  }

  /** `CompoundExpr::GetType` (relational, equality and logical operators). */
  function CompoundRule(op: string, l: Typed, r: Typed): (e: Typed)
    ensures l.diags + r.diags <= e.diags
    ensures |e.diags| == |l.diags| + |r.diags| + Flag(IdentityClash(l.ty, r.ty))
    ensures IdentityClash(l.ty, r.ty) ==> e.diags[|e.diags| - 1] == IncompatibleOperands(op, l.ty, r.ty)
    ensures e.ty == Error <==> !NoError(l.ty, r.ty) || IdentityClash(l.ty, r.ty)
    ensures e.ty != Error ==> e.ty == r.ty
  {
    var inputs := l.diags + r.diags;
    if l.ty == Error || r.ty == Error then Typed(Error, inputs)
    else if l.ty != Null && r.ty != Null && l.ty != r.ty then
      Typed(Error, inputs + [IncompatibleOperands(op, l.ty, r.ty)])
    else Typed(r.ty, inputs)
  }

  /** `ArithmeticExpr::GetType`. */
  function ArithmeticRule(eq: Equivalence, op: string, l: Typed, r: Typed): (e: Typed)
    ensures l.diags + r.diags <= e.diags
    ensures |e.diags| == |l.diags| + |r.diags| + Flag(ArithmeticClash(eq, l.ty, r.ty))
    ensures ArithmeticClash(eq, l.ty, r.ty) ==> e.diags[|e.diags| - 1] == IncompatibleOperands(op, l.ty, r.ty)
    ensures e.ty == Error <==> !NoError(l.ty, r.ty) || ArithmeticClash(eq, l.ty, r.ty)
    ensures e.ty != Error ==> e.ty == r.ty
    ensures l.ty == Null && r.ty != Error ==> e == Typed(r.ty, l.diags + r.diags)
  {
    var inputs := l.diags + r.diags;
    if l.ty == Error || r.ty == Error then Typed(Error, inputs)
    else if l.ty != Null && !eq(l.ty, r.ty) then
      Typed(Error, inputs + [IncompatibleOperands(op, l.ty, r.ty)])
    else Typed(r.ty, inputs)
  }

  /** `AssignExpr::GetType`: the target's type, unless the sides clash. */
  function AssignRule(eq: Equivalence, op: string, l: Typed, r: Typed): (e: Typed)
    ensures l.diags + r.diags <= e.diags
    ensures |e.diags| == |l.diags| + |r.diags| + Flag(AssignClash(eq, l.ty, r.ty))
    ensures AssignClash(eq, l.ty, r.ty) ==> e.diags[|e.diags| - 1] == IncompatibleOperands(op, l.ty, r.ty)
    ensures e.ty == Error <==> !NoError(l.ty, r.ty) || AssignClash(eq, l.ty, r.ty)
    ensures e.ty != Error ==> e.ty == l.ty
  {
    var inputs := l.diags + r.diags;
    if l.ty == Error || r.ty == Error then Typed(Error, inputs)
    else if l.ty != Null && r.ty != Null && !eq(l.ty, r.ty) then
      Typed(Error, inputs + [IncompatibleOperands(op, l.ty, r.ty)])
    else Typed(l.ty, inputs)
  }

  /** `ArrayAccess::Check`: the two checks are independent; each failing one
      reports once, right after the operand it is about. */
  function ArrayAccessCheckRule(arr: nat, index: nat, b: Typed, s: Typed): (d: seq<Diag>)
    ensures b.diags <= d
    ensures |d| == |b.diags| + Flag(!b.ty.Array?) + |s.diags| + Flag(s.ty != Int)
    ensures !b.ty.Array? ==> d[|b.diags|] == BracketsOnNonArray(arr)
    ensures d[|b.diags| + Flag(!b.ty.Array?)..][..|s.diags|] == s.diags
    ensures s.ty != Int ==> d[|d| - 1] == SubscriptNotInteger(index)
  {
    var d1 := b.diags + (if b.ty.Array? then [] else [BracketsOnNonArray(arr)]);
    var d2 := s.diags + (if s.ty == Int then [] else [SubscriptNotInteger(index)]);
    assert (d1 + d2)[|d1|..] == d2;
    d1 + d2
  }

  /** `ArrayAccess::GetType`: runs the check, then evaluates the base again;
      the type is the base's element type, or the error type. */
  function ArrayAccessTypeRule(arr: nat, index: nat, b: Typed, s: Typed): (e: Typed)
    ensures b.ty.Array? ==> e.ty == b.ty.elem
    ensures !b.ty.Array? ==> e.ty == Error
    ensures e.diags == ArrayAccessCheckRule(arr, index, b, s) + b.diags
  {
    Typed(if b.ty.Array? then b.ty.elem else Error, ArrayAccessCheckRule(arr, index, b, s) + b.diags)
  }

  /** The class declaration `name` resolves to from node `from`, if the
      declaration found is a class (`dynamic_cast<ClassDecl*>`). */
  function ClassNamed(p: Program, ctx: Ctx, from: nat, name: string): (c: Option<nat>)
    requires WF(p) && from < |p.nodes|
    ensures c.Some? ==> c.value < |p.nodes| && p.nodes[c.value].kind.ClassNode?
    ensures c.Some? <==> FindDecl(p, from, name, ctx.findMode).Some? && p.decls[FindDecl(p, from, name, ctx.findMode).value].ClassDecl?
    ensures c.Some? ==> c.value == p.decls[FindDecl(p, from, name, ctx.findMode).value].node
  {
    match FindDecl(p, from, name, ctx.findMode)
    case None => None
    case Some(d) =>
      assert DeclOk(p, p.decls[d]);
      if p.decls[d].ClassDecl? then Some(p.decls[d].node) else None
  }

  /** The declared type of the variable `name` resolves to from `from`
      (`dynamic_cast<VarDecl*>`). */
  function VarNamed(p: Program, ctx: Ctx, from: nat, name: string): (t: Option<Type>)
    requires WF(p) && from < |p.nodes|
    ensures t.Some? <==> FindDecl(p, from, name, ctx.findMode).Some? && p.decls[FindDecl(p, from, name, ctx.findMode).value].VarDecl?
    ensures t.Some? ==> p.decls[FindDecl(p, from, name, ctx.findMode).value] == VarDecl(t.value)
  {
    match FindDecl(p, from, name, ctx.findMode)
    case None => None
    case Some(d) => if p.decls[d].VarDecl? then Some(p.decls[d].declaredType) else None
  }

  /** The formal count of the function `name` resolves to from `from`
      (`dynamic_cast<FnDecl*>`). */
  function FnNamed(p: Program, ctx: Ctx, from: nat, name: string): (n: Option<nat>)
    requires WF(p) && from < |p.nodes|
    ensures n.Some? <==> FindDecl(p, from, name, ctx.findMode).Some? && p.decls[FindDecl(p, from, name, ctx.findMode).value].FnDecl?
    ensures n.Some? ==> p.decls[FindDecl(p, from, name, ctx.findMode).value] == FnDecl(n.value)
  {
    match FindDecl(p, from, name, ctx.findMode)
    case None => None
    case Some(d) => if p.decls[d].FnDecl? then Some(p.decls[d].formals) else None
  }

  /** The prepared scope of class node `c` binds `member`. */
  predicate HasMember(p: Program, c: nat, member: string)
    requires WF(p) && c < |p.nodes| && p.nodes[c].kind.ClassNode?
  {
    assert NodeOk(p, c);
    member in ScopeOf(p.nodes[c]).value
  }

  /** How a base-qualified member reference ended: how many times the base
      was asked for its type, and the diagnostic reported, if any. */
  datatype Verdict = Verdict(baseEvals: nat, report: Option<Diag>)

  /** The base checks shared by `FieldAccess::GetType` and `Call::Check`:
      the base type must be a named type, naming a class, whose scope binds
      the member. The first failing check reports. */
  function MemberCheck(p: Program, ctx: Ctx, from: nat, member: string, bt: Type): (v: Verdict)
    requires WF(p) && from < |p.nodes|
    ensures v.baseEvals == 2 || v.baseEvals == 3
    ensures v.report.None? <==>
              bt.Named? && ClassNamed(p, ctx, from, bt.name).Some? && HasMember(p, ClassNamed(p, ctx, from, bt.name).value, member)
    ensures bt.Named? && ClassNamed(p, ctx, from, bt.name).None? <==>
              v.report.Some? && v.report.value.IdentifierNotDeclared?
    ensures bt.Named? && ClassNamed(p, ctx, from, bt.name).None? ==>
              v.report == Some(IdentifierNotDeclared(bt.name, LookingForClass))
    ensures v.report.Some? && !v.report.value.IdentifierNotDeclared? ==> v.report == Some(FieldNotFoundInBase(member, bt))
    ensures v.baseEvals == 3 <==>
              bt.Named? && ClassNamed(p, ctx, from, bt.name).Some? && !HasMember(p, ClassNamed(p, ctx, from, bt.name).value, member)
  {
    if !bt.Named? then Verdict(2, Some(FieldNotFoundInBase(member, bt)))
    else match ClassNamed(p, ctx, from, bt.name)
      case None => Verdict(2, Some(IdentifierNotDeclared(bt.name, LookingForClass)))
      case Some(c) =>
        if !HasMember(p, c, member) then Verdict(3, Some(FieldNotFoundInBase(member, bt)))
        else Verdict(2, None)
  }

  /** `FieldAccess::GetType` with a base: the shared checks, then the access
      check on the accessing node `i`, which re-evaluates the base once more. */
  function FieldVerdict(p: Program, ctx: Ctx, i: nat, field: string, bt: Type): (v: Verdict)
    requires WF(p) && i < |p.nodes| && p.nodes[i].parent.Some?
    ensures v.report.None? <==>
              MemberCheck(p, ctx, ParentOf(p, i), field, bt).report.None? && IsClassScope(p, i, ctx.classMode)
    ensures v.report == Some(InaccessibleField(field, bt)) <==>
              MemberCheck(p, ctx, ParentOf(p, i), field, bt).report.None? && !IsClassScope(p, i, ctx.classMode)
    ensures MemberCheck(p, ctx, ParentOf(p, i), field, bt).report.Some? ==>
              v == MemberCheck(p, ctx, ParentOf(p, i), field, bt)
    ensures v.report.None? ==> v.baseEvals == 2
    ensures v.report == Some(InaccessibleField(field, bt)) ==> v.baseEvals == 3
  {
    var v := MemberCheck(p, ctx, ParentOf(p, i), field, bt);
    if v.report.Some? then v
    else if !IsClassScope(p, i, ctx.classMode) then Verdict(3, Some(InaccessibleField(field, bt)))
    else Verdict(2, None)
  }

  /** `FieldAccess::GetType` at node `i`. Without a base the field is looked
      up from the parent and must be a variable. With a base every path
      yields the error type. */
  function FieldAccessRule(p: Program, ctx: Ctx, i: nat, field: string, base: Option<Typed>): (e: Typed)
    requires WF(p) && i < |p.nodes| && p.nodes[i].parent.Some?
    ensures base.None? ==> (e.diags == [] <==> VarNamed(p, ctx, ParentOf(p, i), field).Some?)
    ensures base.None? && VarNamed(p, ctx, ParentOf(p, i), field).Some? ==>
              e.ty == VarNamed(p, ctx, ParentOf(p, i), field).value
    ensures base.None? && VarNamed(p, ctx, ParentOf(p, i), field).None? ==>
              e == Typed(Error, [IdentifierNotDeclared(field, LookingForVariable)])
    ensures base.Some? ==> e.ty == Error
    ensures base.Some? ==>
              var v := FieldVerdict(p, ctx, i, field, base.value.ty);
              e.diags == Repeat(base.value.diags, v.baseEvals) + Reported(v.report)
  {
    var up := ParentOf(p, i);
    match base
    case None =>
      (match VarNamed(p, ctx, up, field)
       case None => Typed(Error, [IdentifierNotDeclared(field, LookingForVariable)])
       case Some(t) => Typed(t, []))
    case Some(b) =>
      var v := FieldVerdict(p, ctx, i, field, b.ty);
      Typed(Error, Repeat(b.diags, v.baseEvals) + Reported(v.report))
  }

  /** `Call::Check` at node `i`, given the diagnostics of checking the
      actuals and their number. Unqualified calls check the callee is a
      function and the argument count; qualified calls run the shared base
      checks and never compare counts. */
  function CallCheckRule(p: Program, ctx: Ctx, i: nat, callee: string, base: Option<Typed>,
                         actualDiags: seq<Diag>, given: nat): (d: seq<Diag>)
    requires WF(p) && i < |p.nodes| && p.nodes[i].parent.Some?
    ensures actualDiags <= d
    ensures base.None? ==> |d| <= |actualDiags| + 1
    ensures base.None? ==> (|d| == |actualDiags| <==>
              FnNamed(p, ctx, ParentOf(p, i), callee) == Some(given))
    ensures base.None? && FnNamed(p, ctx, ParentOf(p, i), callee).None? ==>
              d[|actualDiags|..] == [IdentifierNotDeclared(callee, LookingForFunction)]
    ensures base.None? && FnNamed(p, ctx, ParentOf(p, i), callee).Some? &&
            FnNamed(p, ctx, ParentOf(p, i), callee).value != given ==>
              d[|actualDiags|..] == [NumArgsMismatch(callee, FnNamed(p, ctx, ParentOf(p, i), callee).value, given)]
    ensures base.Some? ==>
              var v := MemberCheck(p, ctx, ParentOf(p, i), callee, base.value.ty);
              d == actualDiags + Repeat(base.value.diags, v.baseEvals) + Reported(v.report)
  {
    var up := ParentOf(p, i);
    match base
    case None =>
      (match FnNamed(p, ctx, up, callee)
       case None => actualDiags + [IdentifierNotDeclared(callee, LookingForFunction)]
       case Some(n) => if given != n then actualDiags + [NumArgsMismatch(callee, n, given)] else actualDiags)
    case Some(b) =>
      var v := MemberCheck(p, ctx, up, callee, b.ty);
      actualDiags + Repeat(b.diags, v.baseEvals) + Reported(v.report)
  }

  /** Qualified calls never compare argument counts: the number of actuals
      does not change what a qualified call reports. */
  lemma QualifiedCallIgnoresArity(p: Program, ctx: Ctx, i: nat, callee: string, b: Typed,
                                  actualDiags: seq<Diag>, n1: nat, n2: nat)
    requires WF(p) && i < |p.nodes| && p.nodes[i].parent.Some?
    ensures CallCheckRule(p, ctx, i, callee, Some(b), actualDiags, n1) == CallCheckRule(p, ctx, i, callee, Some(b), actualDiags, n2)
    ensures forall k :: |actualDiags| <= k < |CallCheckRule(p, ctx, i, callee, Some(b), actualDiags, n1)| - 1 ==>
              CallCheckRule(p, ctx, i, callee, Some(b), actualDiags, n1)[k] in b.diags
  {
    var d := CallCheckRule(p, ctx, i, callee, Some(b), actualDiags, n1);
    var v := MemberCheck(p, ctx, ParentOf(p, i), callee, b.ty);
    RepeatMembers(b.diags, v.baseEvals);
    forall k | |actualDiags| <= k < |d| - 1 ensures d[k] in b.diags {
      assert d[k] == Repeat(b.diags, v.baseEvals)[k - |actualDiags|];
    }
  }

  /** Every diagnostic of a repeated evaluation is one of the evaluation's. */
  lemma {:induction false} RepeatMembers(d: seq<Diag>, n: nat)
    ensures forall k :: 0 <= k < |Repeat(d, n)| ==> Repeat(d, n)[k] in d
  {
    if n > 0 {
      RepeatMembers(d, n - 1);
      forall k | 0 <= k < |Repeat(d, n)| ensures Repeat(d, n)[k] in d {
        if k >= |d| { assert Repeat(d, n)[k] == Repeat(d, n - 1)[k - |d|]; }
      }
    }
  }

  /** `NewArrayExpr::Check`: reports exactly when the size is not an `int`. */
  function NewArrayCheckRule(size: nat, s: Typed): (d: seq<Diag>)
    ensures s.diags <= d
    ensures |d| == |s.diags| + Flag(s.ty != Int)
    ensures s.ty != Int ==> d[|d| - 1] == NewArraySizeNotInteger(size)
  {
    s.diags + (if s.ty == Int then [] else [NewArraySizeNotInteger(size)])
  }

  /** `NewArrayExpr::GetType` at node `i`: runs the check, then allocates a
      fresh array type over the element type, whatever the check said. */
  function NewArrayTypeRule(i: nat, size: nat, elem: Type, s: Typed): (e: Typed)
    ensures e.ty.Array? && e.ty.elem == elem && e.ty.alloc == NewArrayAt(i)
    ensures e.diags == NewArrayCheckRule(size, s)
  {
    Typed(Array(elem, NewArrayAt(i)), NewArrayCheckRule(size, s))
  }

  /** `This::Check` at node `i`. */
  function ThisCheckRule(i: nat, inClass: bool): (d: seq<Diag>)
    ensures d == [] <==> inClass
    ensures !inClass ==> d == [ThisOutsideClassScope(i)]
  {
    if inClass then [] else [ThisOutsideClassScope(i)]
  }
}

=== FILE: scenarios.dfy ===
/** Small Decaf fragments, built as arenas by hand, and what the checker says
    about them. Each fragment sits in a function body whose scope declares
    the names it uses; lookups are deep in both walks. */
module Scenarios {
  import opened Types
  import opened Ast
  import opened ExprRules
  import opened Checker

  function DeepCtx(eq: Equivalence): Ctx {
    Ctx(eq, Deep, Deep)
  }

  function Expr(parent: nat, k: Kind): Node {
    Node(Some(parent), k, None, None)
  }

  /** A body node whose prepared scope declares `s`. */
  function Body(parent: Option<nat>, s: Scope): Node {
    Node(parent, OtherNode, None, Some(s))
  }

  /** `A x; A y; ... x == y`: each declaration of `A` parses to its own
      named-type object. */
  function SameClassCompare(): Program {
    Program([ Expr(2, FieldAccess(None, "x")),
              Expr(2, FieldAccess(None, "y")),
              Expr(3, Compound("==", Some(0), Some(1))),
              Body(None, map["x" := 0, "y" := 1]) ],
            [ VarDecl(Named("A", Parsed(0))), VarDecl(Named("A", Parsed(1))) ])
  }

  lemma SameClassCompareWellFormed()
    ensures WF(SameClassCompare())
  {
    var p := SameClassCompare();
    assert NodeOk(p, 0) && NodeOk(p, 1) && NodeOk(p, 3);
    assert Children(p.nodes[2].kind) == [0, 1];
    assert NodeOk(p, 2);
  }

  /** Comparing two variables declared with the same class name is reported
      incompatible, because the comparison is by type object, not by name. */
  lemma SameClassCompareIncompatible(eq: Equivalence)
    ensures WF(SameClassCompare())
    ensures TypeOf(SameClassCompare(), DeepCtx(eq), 2)
            == Typed(Error, [IncompatibleOperands("==", Named("A", Parsed(0)), Named("A", Parsed(1)))])
  {
    SameClassCompareWellFormed();
    var p, ctx := SameClassCompare(), DeepCtx(eq);
    var a0, a1 := Named("A", Parsed(0)), Named("A", Parsed(1));
    assert FindDecl(p, 2, "x", Deep) == FindDecl(p, 3, "x", Deep) == Some(0);
    assert FindDecl(p, 2, "y", Deep) == FindDecl(p, 3, "y", Deep) == Some(1);
    assert Operand(p, ctx, 2, Some(0)) == Typed(a0, []);
    assert Operand(p, ctx, 2, Some(1)) == Typed(a1, []);
    assert TypeOf(p, ctx, 2) == CompoundRule("==", Typed(a0, []), Typed(a1, []));
  }

  /** `int a; ... a = "hello"`. */
  function AssignStringToInt(): Program {
    Program([ Expr(2, FieldAccess(None, "a")),
              Expr(2, Leaf(String)),
              Expr(3, Assign("=", Some(0), Some(1))),
              Body(None, map["a" := 0]) ],
            [ VarDecl(Int) ])
  }

  lemma AssignStringToIntWellFormed()
    ensures WF(AssignStringToInt())
  {
    var p := AssignStringToInt();
    assert NodeOk(p, 0) && NodeOk(p, 1) && NodeOk(p, 3);
    assert Children(p.nodes[2].kind) == [0, 1];
    assert NodeOk(p, 2);
  }

  /** When `int` is not equivalent to `string`, the assignment has the error
      type and reports exactly one incompatibility. */
  lemma AssignStringToIntReported(eq: Equivalence)
    requires !eq(Int, String)
    ensures WF(AssignStringToInt())
    ensures TypeOf(AssignStringToInt(), DeepCtx(eq), 2) == Typed(Error, [IncompatibleOperands("=", Int, String)])
    ensures CheckOf(AssignStringToInt(), DeepCtx(eq), 2) == [IncompatibleOperands("=", Int, String)]
  {
    AssignStringToIntWellFormed();
    var p, ctx := AssignStringToInt(), DeepCtx(eq);
    assert FindDecl(p, 2, "a", Deep) == FindDecl(p, 3, "a", Deep) == Some(0);
    assert Operand(p, ctx, 2, Some(0)) == Typed(Int, []);
    assert Operand(p, ctx, 2, Some(1)) == Typed(String, []);
    assert TypeOf(p, ctx, 2) == AssignRule(eq, "=", Typed(Int, []), Typed(String, []));
  }

  /** `void f(int n) {...} ... f(1, 2)`. */
  function CallWithTooManyArgs(): Program {
    Program([ Expr(2, Leaf(Int)),
              Expr(2, Leaf(Int)),
              Expr(3, Call(None, "f", [0, 1], Void)),
              Body(None, map["f" := 0]) ],
            [ FnDecl(1) ])
  }

  lemma CallWithTooManyArgsWellFormed()
    ensures WF(CallWithTooManyArgs())
  {
    var p := CallWithTooManyArgs();
    assert NodeOk(p, 0) && NodeOk(p, 1) && NodeOk(p, 3);
    assert Children(p.nodes[2].kind) == [0, 1];
    assert NodeOk(p, 2);
  }

  /** The call reports one arity mismatch, naming the formal and actual
      counts. */
  lemma CallWithTooManyArgsReported(eq: Equivalence)
    ensures WF(CallWithTooManyArgs())
    ensures CheckOf(CallWithTooManyArgs(), DeepCtx(eq), 2) == [NumArgsMismatch("f", 1, 2)]
  {
    CallWithTooManyArgsWellFormed();
    var p, ctx := CallWithTooManyArgs(), DeepCtx(eq);
    assert [0, 1][1..] == [1] && [1][1..] == [];
    assert CheckAll(p, ctx, 2, [1]) == [];
    assert CheckAll(p, ctx, 2, [0, 1]) == [];
    assert FindDecl(p, 3, "f", Deep) == Some(0);
    assert FnNamed(p, ctx, 3, "f") == Some(1);
    assert CheckOf(p, ctx, 2) == CallCheckRule(p, ctx, 2, "f", None, [], 2);
  }

  /** `void f(int n) {...} ... f((1 + "a") == 2)`: the arithmetic sits under
      a comparison, which is the call's actual. */
  function NestedArithmeticActual(): Program {
    Program([ Expr(2, Leaf(Int)),
              Expr(2, Leaf(String)),
              Expr(4, Arithmetic("+", Some(0), Some(1))),
              Expr(4, Leaf(Int)),
              Expr(5, Compound("==", Some(2), Some(3))),
              Expr(6, Call(None, "f", [4], Void)),
              Body(None, map["f" := 0]) ],
            [ FnDecl(1) ])
  }

  lemma NestedArithmeticActualWellFormed()
    ensures WF(NestedArithmeticActual())
  {
    var p := NestedArithmeticActual();
    assert NodeOk(p, 0);
    assert NodeOk(p, 1);
    assert NodeOk(p, 3);
    assert NodeOk(p, 6);
    assert Children(p.nodes[2].kind) == [0, 1];
    assert NodeOk(p, 2);
    assert Children(p.nodes[4].kind) == [2, 3];
    assert NodeOk(p, 4);
    assert Children(p.nodes[5].kind) == [4];
    assert NodeOk(p, 5);
    assert forall j :: 0 <= j < |p.nodes| ==> NodeOk(p, j) by {
      forall j | 0 <= j < |p.nodes| ensures NodeOk(p, j) {
        assert j in {0, 1, 2, 3, 4, 5, 6};
      }
    }
  }

  /** An arithmetic clash nested under a compound actual is reported once,
      through the comparison's `GetType`, and the call adds nothing. */
  lemma NestedArithmeticActualReported(eq: Equivalence)
    requires !eq(Int, String)
    ensures WF(NestedArithmeticActual())
    ensures CheckOf(NestedArithmeticActual(), DeepCtx(eq), 5) == [IncompatibleOperands("+", Int, String)]
  {
    NestedArithmeticActualWellFormed();
    var p, ctx := NestedArithmeticActual(), DeepCtx(eq);
    var clash := [IncompatibleOperands("+", Int, String)];
    assert TypeOf(p, ctx, 2) == Typed(Error, clash);
    assert TypeOf(p, ctx, 4) == Typed(Error, clash);
    assert [4][1..] == [];
    assert CheckAll(p, ctx, 5, [4]) == clash;
    assert FindDecl(p, 6, "f", Deep) == Some(0);
    assert FnNamed(p, ctx, 6, "f") == Some(1);
    assert CheckOf(p, ctx, 5) == CallCheckRule(p, ctx, 5, "f", None, clash, 1);
  }

  /** `class A { int x; } class B extends A { void m() { x; } }`: node 0 is
      the bare `x`, node 1 is `m`'s body, node 2 is `m` (prepared with an
      empty table) and node 3 is class `B`, whose prepared table holds what
      it declares and what it inherits. */
  function InheritedField(): Program {
    Program([ Expr(1, FieldAccess(None, "x")),
              Body(Some(2), map[]),
              Node(Some(3), OtherNode, None, Some(map[])),
              Node(None, ClassNode, None, Some(map["x" := 0, "m" := 1])) ],
            [ VarDecl(Int), FnDecl(0) ])
  }

  /** The inherited field resolves through the class's table; the body is in
      a class scope in deep mode but not on its own. */
  lemma InheritedFieldResolves(eq: Equivalence)
    ensures WF(InheritedField())
    ensures TypeOf(InheritedField(), DeepCtx(eq), 0) == Typed(Int, [])
    ensures IsClassScope(InheritedField(), 1, Deep)
    ensures !IsClassScope(InheritedField(), 1, Shallow)
  {
    var p := InheritedField();
    assert NodeOk(p, 0) && NodeOk(p, 1) && NodeOk(p, 2) && NodeOk(p, 3);
    assert FindDecl(p, 1, "x", Deep) == FindDecl(p, 2, "x", Deep) == FindDecl(p, 3, "x", Deep);
    assert IsClassScope(p, 1, Deep) == IsClassScope(p, 2, Deep);
  }

  /** `this` directly in a global function body. */
  function ThisAtTopLevel(): Program {
    Program([ Expr(1, This), Body(None, map[]) ], [])
  }

  lemma ThisAtTopLevelReported(eq: Equivalence)
    ensures WF(ThisAtTopLevel())
    ensures TypeOf(ThisAtTopLevel(), DeepCtx(eq), 0) == Typed(Error, [ThisOutsideClassScope(0)])
  {
    var p := ThisAtTopLevel();
    assert NodeOk(p, 0) && NodeOk(p, 1);
  }
}

=== FILE: types.dfy ===
/** Types and diagnostics of the Decaf semantic checker.

    The checker's primitive types are process-wide singletons; named and array
    types are heap objects, compared in places by object identity. The model
    gives every heap-allocated type an `AllocId`, so that datatype equality on
    `Type` is exactly the source's pointer equality. */
module Types {

  datatype Option<+T> = None | Some(value: T)

  /** Identity of a heap-allocated type object: either one the parser
      allocated (a declared `NamedType` or `ArrayType`, numbered by the
      caller), or the `ArrayType` a `new[]` expression allocates when its
      type is asked for. */
  datatype AllocId = Parsed(id: nat) | NewArrayAt(node: nat)

  datatype Type =
    | Int | Double | Bool | String | Void | Null | Error
    | Named(name: string, alloc: AllocId)
    | Array(elem: Type, alloc: AllocId)

  /** `IsEquivalentTo`, whose body is not part of this model: any relation. */
  type Equivalence = (Type, Type) -> bool

  /** What an undeclared identifier was looked up as. */
  datatype Reason = LookingForVariable | LookingForFunction | LookingForClass

  /** One diagnostic, as kind plus arguments; nodes are arena indices. */
  datatype Diag =
    | IncompatibleOperands(op: string, left: Type, right: Type)
    | BracketsOnNonArray(array: nat)
    | SubscriptNotInteger(subscript: nat)
    | NewArraySizeNotInteger(size: nat)
    | IdentifierNotDeclared(name: string, reason: Reason)
    | FieldNotFoundInBase(field: string, baseType: Type)
    | InaccessibleField(field: string, baseType: Type)
    | NumArgsMismatch(name: string, expected: nat, given: nat)
    | ThisOutsideClassScope(node: nat)

  /** The outcome of asking an expression for its type: the type and the
      diagnostics reported while computing it, in reporting order. */
  datatype Typed = Typed(ty: Type, diags: seq<Diag>)

  /** What `GetLeft`/`GetRight` yield for a missing operand. */
  const Absent: Typed := Typed(Null, [])

  /** The diagnostic reported, if any, as a sequence of length at most one. */
  function Reported(d: Option<Diag>): (s: seq<Diag>)
    ensures |s| <= 1
    ensures d.None? ==> s == []
    ensures d.Some? ==> s == [d.value]
  {
    match d
    case None => []
    case Some(x) => [x]
  }

  /** The diagnostics of `n` successive evaluations of one sub-expression. */
  function Repeat(d: seq<Diag>, n: nat): (s: seq<Diag>)
    ensures |s| == n * |d|
  {
    if n == 0 then [] else d + Repeat(d, n - 1)
  }
}
